=== FILE: README.md ===
# Kop Kenya OLSC sign-up: a Dafny model

This project models the decision logic of the Kop Kenya OLSC membership sign-up page and its server action:

- **`SignUpView`** (`signup_view.dfy`) covers `src/views/SignUpView.tsx`:
  - the zod schema `signUpSchema`, as a pure validator: `Issues` lists every issue and `Parse` gives the data or the issues;
  - the form's state as a `SignUpForm` class: default values, typing, checkboxes, the WhatsApp radio's `onValueChange`, `form.reset()`, `onSuccess`, and a `Submit` that runs the schema, calls the action and shows what the page as written shows (a thrown error reaches `onError` and its generic text). `SubmitCorrected` is the same flow with errors returned as responses.
- **`Actions`** (`actions.dfy`) covers `signUpUser` in `src/app/actions.ts`:
  - a `UserStore` class holds the user table as a `seq` of records;
  - `FindFirst` is the email-or-phone lookup, written as a loop;
  - `SignUpUser` checks, then inserts, then reclassifies errors;
  - `SignUp` is the function that specifies `SignUpUser`.
- **`Errors`** (`errors.dfy`) covers `src/lib/errors.ts`: `AppError`, its constructor, `toJSON`/`fromJSON` and `ErrorCodes`.
- **`Wrappers`** (`wrappers.dfy`) holds `Option` and `Result`. An exception that the source throws becomes the `Err` variant of a `Result`.

The schema follows zod 3's semantics, read as a synchronous parse. The code uses zod 3's `required_error` option.
- A failed string check (`min`, `max`, `email`) or a failed refinement does not stop the other checks on the same field. So the phone `"123"` gets both "Phone number is too short" and "Please enter a valid international phone number".
- A missing value, or an answer outside `["yes", "no"]`, stops that field. It also makes zod skip the object-level `.refine`.
- For a synchronous parse, issues come out in the order of the object's keys, with the cross-field issue last. The page's resolver parses asynchronously, which can move refinement issues after later keys' issues; only the first issue of each field is shown, so nothing visible changes.

Three things the schema needs from outside are parameters. They are collected in `Env`:
- email syntax (`isEmail`);
- the calendar year that `new Date(s).getFullYear()` yields (`birthYear`, `None` for an unparseable date);
- the current year.

The faults of the store's two calls are also parameters: what `findFirst` and `create` throw, if anything.

Three behaviours of the code worth stating outright:
- The name's length is checked without trimming.
- The cross-field rule is skipped whenever any field is missing, not only when the fields it reads are missing.
- A failing insert, including a uniqueness violation raised by the database, is reported as `UNKNOWN_ERROR` / 500, not as a duplicate.

## Model

| member | source | states |
|---|---|---|
| Errors.NewAppError | src/lib/errors.ts:2-9 | a new AppError keeps its message and code, is named "AppError", and gets status 400 when no status is passed |
| Errors.ToJson | src/lib/errors.ts:11-18 | toJSON returns exactly message, code, statusCode and name, with the object's values |
| Errors.FromJson | src/lib/errors.ts:20-29 | fromJSON builds an error whose message, code and statusCode are the object's, and whose name is the object's name, overwriting "AppError" |
| Errors.FromJsonOfToJson | src/lib/errors.ts:11-29 | fromJSON(e.toJSON()) is e again, with the same message, code, statusCode and name |
| Errors.ToJsonOfFromJson | src/lib/errors.ts:20-29 | fromJSON(j).toJSON() is j for every j, including a name other than "AppError" |
| Errors.ToJsonInjective | src/lib/errors.ts:11-29 | two errors have the same JSON form exactly when they are equal |
| Errors.ErrorCodeValues | src/lib/errors.ts:32-36 | each ErrorCodes value equals its key, and the three values are distinct |
| Actions.Reclassify | src/app/actions.ts:49-65 | an AppError is rethrown unchanged; another Error becomes its message with UNKNOWN_ERROR / 500; anything else becomes "An unexpected error occurred" with UNKNOWN_ERROR / 500 |
| Actions.ToRecord | src/app/actions.ts:34-42 | the record copies email, phone, name, date of birth and both flags; invitedToWhatsapp holds exactly when the answer is "yes", so "no" gives false whatever the invite flag |
| Actions.SignUp | src/app/actions.ts:16-66 | the call succeeds exactly when neither store call throws and no record has the email or the phone; a conflict found by a working lookup gives the USER_EXISTS error; a findFirst fault, or a create fault after a clean lookup, gives that fault reclassified by the catch block; the table after is the old one or the old one plus the mapped record |
| Actions.UserStore.constructor | src/app/actions.ts:3 | a fresh store standing for the imported database client; it starts from an empty table, a modelling choice (the real table's contents are outside the code) |
| Actions.UserStore.FindFirst | src/app/actions.ts:19-23 | returns a stored record that has the email or the phone, and returns none exactly when no record has either |
| Actions.UserStore.SignUpUser | src/app/actions.ts:16-66 | the reply or error and the new table are those of `SignUp` on the old table; uniqueness of emails and phones is preserved |
| Actions.EitherKeyRejects | src/app/actions.ts:19-30 | a record matching on the email alone, or on the phone alone, is enough for a USER_EXISTS failure that leaves the table unchanged |
| Actions.DuplicateRejected | src/app/actions.ts:25-30 | a conflicting record gives AppError("A user with this email or phone number is already registered", "USER_EXISTS", 400, "AppError") and leaves the table unchanged |
| Actions.FreshSignUpInserts | src/app/actions.ts:33-48 | with no conflict and no fault, exactly the mapped record is appended and the reply is success with "You have been successfully signed up." |
| Actions.SignUpAddsAtMostOne | src/app/actions.ts:16-66 | every call either appends exactly the one mapped record and succeeds, or fails and leaves the table as it was |
| Actions.FaultLeavesTable | src/app/actions.ts:49-65 | when findFirst or create throws, the table is unchanged and the error is the fault reclassified by the catch block; an Error thrown by create, such as a database uniqueness violation, becomes its message with UNKNOWN_ERROR / 500 |
| Actions.SignUpKeepsUniqueKeys | src/app/actions.ts:19-43 | if emails and phones are each unique in the table before a call, they are after it |
| Actions.SignUpTwice | src/app/actions.ts:19-48 | the same data twice: the first call succeeds, the second fails with USER_EXISTS, and the table gains exactly one record |
| SignUpView.DigitsOnly | src/views/SignUpView.tsx:109 | the result has only ASCII digits, is no longer than the input, and is the input itself when the input is all digits |
| SignUpView.DigitsOnlyAppend | src/views/SignUpView.tsx:109 | the digits of a concatenation are the concatenation of the digits |
| SignUpView.DigitsOnlyIgnores | src/views/SignUpView.tsx:109-114 | a non-digit character anywhere in the phone does not change its digits |
| SignUpView.PhoneAcceptedIff | src/views/SignUpView.tsx:103-115 | a phone passes exactly when its length and its digit count both lie in [8, 15] |
| SignUpView.PhoneTooShort | src/views/SignUpView.tsx:103-115 | a phone shorter than 8 gets "Phone number is too short" and, having too few digits, the international-number message |
| SignUpView.PhoneTooLong | src/views/SignUpView.tsx:103-115 | a phone longer than 15 gets "Phone number is too long" first, and never "too short" |
| SignUpView.PhoneFormatsAgree | src/views/SignUpView.tsx:107-115 | "+254 712-345678" and "254712345678" have the same 12 digits, and both pass |
| SignUpView.NameAcceptedIff | src/views/SignUpView.tsx:116 | a name passes exactly when it has at least 2 characters, untrimmed, so two spaces pass |
| SignUpView.AgeByYears | src/views/SignUpView.tsx:117-122 | the date passes exactly when the current year minus the birth year is at least 18; an unparseable date fails |
| SignUpView.AgeBoundary | src/views/SignUpView.tsx:117-122 | a birth year 18 years back passes whatever the month and day; 17 years back fails |
| SignUpView.WhatsappAnswerIff | src/views/SignUpView.tsx:123-125 | the WhatsApp answer passes exactly when it is "yes" or "no" |
| SignUpView.NoWithoutInviteFails | src/views/SignUpView.tsx:129-142 | "no" with the box unticked never passes; when no other field stops the check, the issue is on path ["shouldInviteToWhatsapp"] with the join message |
| SignUpView.YesNeverNeedsInvite | src/views/SignUpView.tsx:129-142 | with "yes", no issue is ever reported on the path of the invitation box |
| SignUpView.EmailIssues | src/views/SignUpView.tsx:102 | a present email passes exactly when the email check holds, and otherwise gets "Invalid email address"; an unset one gets "Required"; always on path ["email"] |
| SignUpView.PhoneIssues | src/views/SignUpView.tsx:103-115 | a present phone gets "too short" below 8 characters, "too long" above 15, then "Please enter a valid international phone number" unless it has 8 to 15 digits; with an in-range length it passes exactly when the digit count is in range; an unset one gets "Required"; always on path ["phone"] |
| SignUpView.NameIssues | src/views/SignUpView.tsx:116 | a present name passes exactly when it has at least 2 characters, and otherwise gets "Name must be at least 2 characters"; an unset one gets "Required"; always on path ["name"] |
| SignUpView.DateIssues | src/views/SignUpView.tsx:117-122 | a present date passes exactly when it parses to a year at least 18 below the current year, and otherwise gets "You must be at least 18 years old"; an unset one gets "Required"; always on path ["dateOfBirth"] |
| SignUpView.WhatsappIssues | src/views/SignUpView.tsx:123-125 | a present answer passes exactly when it is "yes" or "no", and otherwise gets zod's invalid-enum message naming it; an unset one gets "Please select if you are already in the WhatsApp group"; always on path ["isAlreadyInWhatsapp"] |
| SignUpView.CrossFieldIssues | src/views/SignUpView.tsx:129-142 | an issue exactly when the answer is "no" and the box is unticked, on path ["shouldInviteToWhatsapp"]; never with "yes" |
| SignUpView.Issues | src/views/SignUpView.tsx:100-142 | parsing is not fail-fast: every issue of every field (email, phone, name, dateOfBirth, isAlreadyInWhatsapp) is reported together, and so is the cross-field issue when zod reaches the object refinement; every issue names one key of the schema, and no cross-field issue appears when a missing field or bad answer stopped zod before the object refinement |
| SignUpView.Parse | src/views/SignUpView.tsx:100-142 | fails exactly when there are issues, and then carries all of them; on success the data is the form's values, unchanged |
| SignUpView.ParseOkIff | src/views/SignUpView.tsx:100-142 | the schema accepts exactly the values that meet every field rule and the cross-field rule |
| SignUpView.AcceptedNoIsInvited | src/views/SignUpView.tsx:129-136 | accepted data that answers "no" always carries shouldInviteToWhatsapp true |
| SignUpView.WithText | src/views/SignUpView.tsx:232-367 | typing into a text input sets that field and no other |
| SignUpView.WithCheck | src/views/SignUpView.tsx:443-479 | ticking a checkbox sets that flag and no other |
| SignUpView.WithAnswer | src/views/SignUpView.tsx:386-393 | choosing an answer stores it; "yes" unticks the invitation box and "no" ticks it; every other field is unchanged |
| SignUpView.AnswerSatisfiesCrossField | src/views/SignUpView.tsx:386-393 | after any radio choice the cross-field rule holds |
| SignUpView.EditsKeepCoherent | src/views/SignUpView.tsx:386-393 | the defaults, and every edit the page allows, keep the invitation box ticked only while the answer is "no" |
| SignUpView.CoherentRecordFlags | src/views/SignUpView.tsx:386-393 | a coherent form that passes the schema stores exactly one of invitedToWhatsapp and shouldInviteToWhatsapp as true |
| SignUpView.DefaultsRejected | src/views/SignUpView.tsx:176-179 | both boxes start unticked, and the defaults fail with "Required" on the four text fields and the radio's own message |
| SignUpView.ResponseToast | src/views/SignUpView.tsx:158-166 | success shows the response's message; a failure with a non-empty error message shows it; anything else shows "An unexpected error occurred during sign up" |
| SignUpView.ToastAsWritten | src/views/SignUpView.tsx:156-171 | as written, a returned reply is shown by onSuccess, and every thrown error shows "An unexpected error occurred during sign up" |
| SignUpView.DuplicateMessageHiddenAsWritten | src/views/SignUpView.tsx:156-171 | as written, a duplicate sign-up reaches onError and shows the generic text, never the duplicate message |
| SignUpView.ToResponse | src/views/SignUpView.tsx:146-153 | the corrected conversion, which no code performs as written: once errors come back as responses, a reply becomes a success response and an error becomes `{success: false, error: {message, code}}` in the declared SignUpResponse shape |
| SignUpView.OutcomeToastShows | src/views/SignUpView.tsx:158-166 | once errors come back as responses, success shows its message and every error with a message shows that message |
| SignUpView.DuplicateMessageShown | src/views/SignUpView.tsx:158-166 | once errors come back as responses, a duplicate sign-up shows "A user with this email or phone number is already registered" |
| SignUpView.SignUpForm.constructor | src/views/SignUpView.tsx:174-180 | the form starts from the default values |
| SignUpView.SignUpForm.EnterText | src/views/SignUpView.tsx:232-367 | the new values are WithText of the old ones |
| SignUpView.SignUpForm.Check | src/views/SignUpView.tsx:431-479 | the new values are WithCheck of the old ones; the invitation box exists only after "no" |
| SignUpView.SignUpForm.SelectAnswer | src/views/SignUpView.tsx:386-393 | field.onChange, then setValue on the invitation box, gives WithAnswer of the old values |
| SignUpView.SignUpForm.Reset | src/views/SignUpView.tsx:161 | the form is back to its default values |
| SignUpView.SignUpForm.OnSuccess | src/views/SignUpView.tsx:158-166 | shows ResponseToast of the response, and resets the form exactly when the response is a success |
| SignUpView.SignUpForm.Submit | src/views/SignUpView.tsx:156-182 | issues stop the submission with table and form unchanged; otherwise the table becomes SignUp's; a reply goes to onSuccess (toast, reset); a thrown error shows the generic onError text and leaves the form |
| SignUpView.SignUpForm.SubmitCorrected | src/views/SignUpView.tsx:158-166 | once errors come back as responses: the same table change, the toast of onSuccess for the response, so a duplicate shows its own message; reset on success |
| SignUpView.JaneSignsUpOnce | src/views/SignUpView.tsx:100-142 | Jane Doe's form passes; against an empty table it stores one record with invitedToWhatsapp false, and a second submission fails with USER_EXISTS |

## Left out

- Actions.UserStore.FindFirst: does not say which matching record comes back, because `findFirst` without `orderBy` does not fix it. Only whether a match exists is used.
- The page layout, colours, `phoneInputStyles`, the image, the Card/Form wrappers and the `PhoneInput` widget are not modelled: they are presentation only.
- `toast`, `useMutation`, `isPending`, `zodResolver` and the rest of react-hook-form are not modelled: they are library glue. Only the decisions they carry are kept.
- zod's email regular expression is not modelled: it is library behaviour. It is the `Env.isEmail` parameter.
- `new Date(...)`, `getFullYear` and the clock are not modelled: they depend on locale, timezone and time. They are `Env.birthYear` and `Env.currentYear`. The date string is stored as sent; its conversion to a Date is not modelled.
- The `min`/`max` attributes of the date input are not modelled: they are built with `toISOString` and depend on the timezone.
- The messages "Required" and "Invalid enum value. Expected 'yes' | 'no', received '…'" are zod 3's defaults. Form values that are `null` or of the wrong type are not modelled; only unset fields are.
- String lengths are counted in characters. JavaScript counts UTF-16 code units, which differ for characters outside the Basic Multilingual Plane.
- The database is an in-memory sequence, not Prisma. Generated ids and timestamps are not modelled. Email and phone are compared by exact string equality; database collation is not modelled.
- Concurrent sign-ups are not modelled: that is concurrency inside the external store. This covers the race between `findFirst` and `create`. Which kind of Error the database raises (for example on a uniqueness violation) is not modelled either: any Error thrown by `create` is a `ThrownError` and is reclassified as `UNKNOWN_ERROR` with status 500.
- `console.error` logging is not modelled.
- Errors.NewAppError: `statusCode` is an unbounded integer, not a JavaScript number (no fractions or NaN). The `Error` base class (stack, prototype chain) is not modelled.
- AppError is a value, not an object: `fromJSON` overwrites the name on the new value before anyone else can see it, so no aliasing is lost.

## Findings

| source | as written | input that shows it | evidently intended | confidence | as-written member | corrected member |
|---|---|---|---|---|---|---|
| src/views/SignUpView.tsx:158-171 | signUpUser throws its AppError, so the mutation's onError shows the generic text; the error branch of onSuccess can never be reached | signing up with an email already in the table shows "An unexpected error occurred during sign up" | the SignUpResponse type and onSuccess expect the failure returned as `{success: false, error: {message, code}}`, showing "A user with this email or phone number is already registered" (the page flow is SignUpView.SignUpForm.SubmitCorrected) | medium, not executed | SignUpView.DuplicateMessageHiddenAsWritten | SignUpView.DuplicateMessageShown |

=== FILE: actions.dfy ===
/**
 * The server action signUpUser of src/app/actions.ts: look for a user with
 * the same email or phone, and insert a new one only when there is none.
 * The user table is an in-memory sequence of records; what the store's two
 * calls may throw is given as a parameter.
 */
module Actions {
  import opened Wrappers
  import opened Errors

  /** The argument of signUpUser. */
  datatype SignUpFormData = SignUpFormData(
    name: string,
    email: string,
    phone: string,
    dateOfBirth: string,
    isAlreadyInWhatsapp: string,
    shouldInviteToWhatsapp: Option<bool>,
    shouldReceiveUpdates: bool)

  /**
   * A row of the user table as signUpUser writes it. The generated id and
   * timestamps are not part of the model; the date of birth is the string the
   * caller sent (its conversion to a Date is not modelled).
   */
  datatype UserRecord = UserRecord(
    email: string,
    phone: string,
    name: string,
    dateOfBirth: string,
    invitedToWhatsapp: bool,
    shouldInviteToWhatsapp: Option<bool>,
    shouldReceiveUpdates: bool)

  /** What a failing call can throw: an AppError, another Error with its message, or a value that is no Error. */
  datatype Thrown = ThrownAppError(error: AppError) | ThrownError(message: string) | ThrownValue

  /** The value signUpUser returns when it does not throw. */
  datatype SignUpReply = SignUpReply(success: bool, message: string)

  const SuccessMessage: string := "You have been successfully signed up."
  const UserExistsMessage: string := "A user with this email or phone number is already registered"
  const UnexpectedMessage: string := "An unexpected error occurred"

  /** The error signUpUser throws when a user already holds the email or the phone. */
  const UserExistsError: AppError := NewAppError(UserExistsMessage, USER_EXISTS.Value(), None)

  /** The catch block: what signUpUser throws in place of what it caught. */
  function Reclassify(t: Thrown): (e: AppError)
    ensures t.ThrownAppError? ==> e == t.error
    ensures !t.ThrownAppError? ==> e.code == UNKNOWN_ERROR.Value() && e.statusCode == 500 && e.name == AppErrorName
    ensures t.ThrownError? ==> e.message == t.message
    ensures t.ThrownValue? ==> e.message == UnexpectedMessage
  {
    match t
    case ThrownAppError(error) => error
    case ThrownError(message) => NewAppError(message, UNKNOWN_ERROR.Value(), Some(500))
    case ThrownValue => NewAppError(UnexpectedMessage, UNKNOWN_ERROR.Value(), Some(500))
  }

  /** The `OR` filter of findFirst: the record has the email or the phone. */
  predicate Matches(u: UserRecord, email: string, phone: string) {
    u.email == email || u.phone == phone
  }

  /** Some record of the table has the email or the phone. */
  predicate Conflicts(users: seq<UserRecord>, email: string, phone: string) {
    exists i :: 0 <= i < |users| && Matches(users[i], email, phone)
  }

  /** Emails are unique across the table, and so are phones. */
  predicate UniqueKeys(users: seq<UserRecord>) {
    forall i, j :: 0 <= i < j < |users| ==>
      users[i].email != users[j].email && users[i].phone != users[j].phone
  }

  /**
   * The `data` object passed to create: five fields copied, and
   * invitedToWhatsapp set exactly when the answer is "yes".
   */
  function ToRecord(d: SignUpFormData): (u: UserRecord)
    ensures u.email == d.email && u.phone == d.phone && u.name == d.name
    ensures u.dateOfBirth == d.dateOfBirth
    ensures u.shouldInviteToWhatsapp == d.shouldInviteToWhatsapp
    ensures u.shouldReceiveUpdates == d.shouldReceiveUpdates
    ensures u.invitedToWhatsapp <==> d.isAlreadyInWhatsapp == "yes"
  {
    UserRecord(
      d.email, d.phone, d.name, d.dateOfBirth,
      d.isAlreadyInWhatsapp == "yes",
      d.shouldInviteToWhatsapp, d.shouldReceiveUpdates)
  }

  /**
   * signUpUser as a function of the table before the call, of the data and of
   * what findFirst and create throw (None when the call succeeds): the reply or
   * the thrown error, and the table after the call.
   */
  function SignUp(users: seq<UserRecord>, data: SignUpFormData,
                  lookupFault: Option<Thrown>, createFault: Option<Thrown>)
    : (out: (Result<SignUpReply, AppError>, seq<UserRecord>))
    ensures out.0.Ok? <==> lookupFault.None? && !Conflicts(users, data.email, data.phone) && createFault.None?
    ensures lookupFault.None? && Conflicts(users, data.email, data.phone) ==> out.0 == Err(UserExistsError)
    ensures lookupFault.Some? ==> out.0 == Err(Reclassify(lookupFault.value))
    ensures lookupFault.None? && !Conflicts(users, data.email, data.phone) && createFault.Some? ==>
      out.0 == Err(Reclassify(createFault.value))
    ensures out.1 == users || out.1 == users + [ToRecord(data)]
  {
    if lookupFault.Some? then
      (Err(Reclassify(lookupFault.value)), users)
    else if Conflicts(users, data.email, data.phone) then
      (Err(Reclassify(ThrownAppError(UserExistsError))), users)
    else if createFault.Some? then
      (Err(Reclassify(createFault.value)), users)
    else
      (Ok(SignUpReply(true, SuccessMessage)), users + [ToRecord(data)])
  }

  /** The user table (`prisma.user`). */
  class UserStore {
    var users: seq<UserRecord>

    constructor ()
      ensures users == []
    {
      users := [];
    }

    /** `findFirst` with the email-or-phone filter. */
    method FindFirst(email: string, phone: string) returns (found: Option<UserRecord>)
      ensures found.Some? ==> found.value in users && Matches(found.value, email, phone)
      ensures found.None? <==> !Conflicts(users, email, phone)
    {
      var i := 0;
      while i < |users|
        invariant 0 <= i <= |users|
        invariant forall k :: 0 <= k < i ==> !Matches(users[k], email, phone)
      {
        if Matches(users[i], email, phone) {
          return Some(users[i]);
        }
        i := i + 1;
      }
      return None;
    }

    /**
     * signUpUser. The thrown error is returned as Err; `lookupFault` and
     * `createFault` say what findFirst and create throw, if anything.
     */
    method SignUpUser(data: SignUpFormData, lookupFault: Option<Thrown>, createFault: Option<Thrown>)
      returns (r: Result<SignUpReply, AppError>)
      modifies this
      ensures (r, users) == SignUp(old(users), data, lookupFault, createFault)
      ensures UniqueKeys(old(users)) ==> UniqueKeys(users)
    {
      if UniqueKeys(users) {
        SignUpKeepsUniqueKeys(users, data, lookupFault, createFault);
      }
      var caught: Thrown;
      if lookupFault.Some? {
        caught := lookupFault.value;
      } else {
        var existing := FindFirst(data.email, data.phone);
        if existing.Some? {
          caught := ThrownAppError(NewAppError(UserExistsMessage, USER_EXISTS.Value(), None));
        } else if createFault.Some? {
          caught := createFault.value;
        } else {
          users := users + [ToRecord(data)];
          return Ok(SignUpReply(true, SuccessMessage));
        }
      }
      r := Err(Reclassify(caught));
    }
  }

  /** A record that has the email, or the phone, is enough to reject. */
  lemma EitherKeyRejects(users: seq<UserRecord>, data: SignUpFormData, createFault: Option<Thrown>, i: nat)
    requires i < |users|
    requires users[i].email == data.email || users[i].phone == data.phone
    ensures SignUp(users, data, None, createFault) == (Err(UserExistsError), users)
  {
    assert Matches(users[i], data.email, data.phone);
  }

  /** A duplicate fails with USER_EXISTS, the fixed message and status 400, and the table is unchanged. */
  lemma DuplicateRejected(users: seq<UserRecord>, data: SignUpFormData, createFault: Option<Thrown>)
    requires Conflicts(users, data.email, data.phone)
    ensures SignUp(users, data, None, createFault).1 == users
    ensures SignUp(users, data, None, createFault).0
         == Err(AppError(UserExistsMessage, "USER_EXISTS", 400, "AppError"))
  {
  }

  /** Without a conflict or a fault, exactly the mapped record is appended and the call succeeds. */
  lemma FreshSignUpInserts(users: seq<UserRecord>, data: SignUpFormData)
    requires !Conflicts(users, data.email, data.phone)
    ensures SignUp(users, data, None, None)
         == (Ok(SignUpReply(true, "You have been successfully signed up.")), users + [ToRecord(data)])
  {
  }

  /** Every call adds zero or one record, one exactly when it succeeds, and never touches the records already there. */
  lemma SignUpAddsAtMostOne(users: seq<UserRecord>, data: SignUpFormData,
                            lookupFault: Option<Thrown>, createFault: Option<Thrown>)
    ensures var (r, after) := SignUp(users, data, lookupFault, createFault);
      (r.Ok? ==> after == users + [ToRecord(data)]) &&
      (r.Err? ==> after == users)
  {
  }

  /**
   * A failing findFirst or create leaves the table as it was, and the caller
   * gets the reclassified error: an Error's message with UNKNOWN_ERROR / 500,
   * so a uniqueness violation raised by create is not reported as a duplicate.
   */
  lemma FaultLeavesTable(users: seq<UserRecord>, data: SignUpFormData,
                         lookupFault: Option<Thrown>, createFault: Option<Thrown>)
    requires lookupFault.Some? || createFault.Some?
    ensures SignUp(users, data, lookupFault, createFault).0.Err?
    ensures SignUp(users, data, lookupFault, createFault).1 == users
    ensures lookupFault.Some? ==>
      SignUp(users, data, lookupFault, createFault).0 == Err(Reclassify(lookupFault.value))
    ensures lookupFault.None? && !Conflicts(users, data.email, data.phone) ==>
      SignUp(users, data, lookupFault, createFault).0 == Err(Reclassify(createFault.value))
    ensures lookupFault.None? && !Conflicts(users, data.email, data.phone) &&
            createFault.Some? && createFault.value.ThrownError? ==>
      SignUp(users, data, lookupFault, createFault).0
        == Err(AppError(createFault.value.message, "UNKNOWN_ERROR", 500, "AppError"))
  {
  }

  /** If emails and phones are each unique before a call, they are after it. */
  lemma SignUpKeepsUniqueKeys(users: seq<UserRecord>, data: SignUpFormData,
                              lookupFault: Option<Thrown>, createFault: Option<Thrown>)
    requires UniqueKeys(users)
    ensures UniqueKeys(SignUp(users, data, lookupFault, createFault).1)
  {
    var after := SignUp(users, data, lookupFault, createFault).1;
    if after != users {
      assert after == users + [ToRecord(data)];
      forall i, j | 0 <= i < j < |after|
        ensures after[i].email != after[j].email && after[i].phone != after[j].phone
      {
        if j == |users| {
          assert !Matches(users[i], data.email, data.phone);
        }
      }
    }
  }

  /** The same data twice: the first call succeeds, the second fails with USER_EXISTS, one record is added in all. */
  lemma SignUpTwice(users: seq<UserRecord>, data: SignUpFormData)
    requires !Conflicts(users, data.email, data.phone)
    ensures var (r1, s1) := SignUp(users, data, None, None);
            var (r2, s2) := SignUp(s1, data, None, None);
            r1 == Ok(SignUpReply(true, SuccessMessage)) &&
            r2 == Err(UserExistsError) && r2.error.code == "USER_EXISTS" &&
            s2 == users + [ToRecord(data)]
  {
    var s1 := users + [ToRecord(data)];
    assert Matches(s1[|users|], data.email, data.phone);
  }
}

=== FILE: errors.dfy ===
/**
 * The application error of src/lib/errors.ts: a message, a symbolic code,
 * an HTTP status code and a name, with its plain-object form.
 */
module Errors {
  import opened Wrappers

  /** The keys of `ErrorCodes`. */
  datatype ErrorCode = USER_EXISTS | VALIDATION_ERROR | UNKNOWN_ERROR {

    /** The string each key of `ErrorCodes` holds. */
    function Value(): string {
      match this
      case USER_EXISTS => "USER_EXISTS"
      case VALIDATION_ERROR => "VALIDATION_ERROR"
      case UNKNOWN_ERROR => "UNKNOWN_ERROR"
    }
  }

  /** The status code an AppError gets when none is passed. */
  const DefaultStatusCode: int := 400

  /** The name the constructor gives every AppError. */
  const AppErrorName: string := "AppError"

  /**
   * An AppError object. `code` is any string (fromJSON accepts any), and
   * `name` may differ from "AppError" after fromJSON.
   */
  datatype AppError = AppError(message: string, code: string, statusCode: int, name: string)

  /** The plain object toJSON returns and fromJSON takes. */
  datatype AppErrorJson = AppErrorJson(message: string, code: string, statusCode: int, name: string)

  /** `new AppError(message, code, statusCode?)`: a missing status code defaults to 400. */
  function NewAppError(message: string, code: string, statusCode: Option<int>): (e: AppError)
    ensures e.message == message && e.code == code
    ensures e.name == AppErrorName
    ensures statusCode.None? ==> e.statusCode == DefaultStatusCode
    ensures statusCode.Some? ==> e.statusCode == statusCode.value
  {
    var status := match statusCode
      case None => DefaultStatusCode
      case Some(s) => s;
    AppError(message, code, status, AppErrorName)
  }

  /** `e.toJSON()`: exactly the four fields, with the error's values. */
  function ToJson(e: AppError): (j: AppErrorJson)
    ensures j.message == e.message && j.code == e.code
    ensures j.statusCode == e.statusCode && j.name == e.name
  {
    AppErrorJson(e.message, e.code, e.statusCode, e.name)
  }

  /** `AppError.fromJSON(j)`: construct, then overwrite the name, so every field is the object's. */
  function FromJson(j: AppErrorJson): (e: AppError)
    ensures e.message == j.message && e.code == j.code
    ensures e.statusCode == j.statusCode && e.name == j.name
  {
    var error := NewAppError(j.message, j.code, Some(j.statusCode));
    error.(name := j.name)
  }

  /** An error serialised and read back is the same error. */
  lemma FromJsonOfToJson(e: AppError)
    ensures FromJson(ToJson(e)) == e
  {
  }

  /** Any plain object read and serialised again is the same object, whatever its name. */
  lemma ToJsonOfFromJson(j: AppErrorJson)
    ensures ToJson(FromJson(j)) == j
  {
  }

  /** The two forms are in one-to-one correspondence. */
  lemma ToJsonInjective(a: AppError, b: AppError)
    ensures ToJson(a) == ToJson(b) <==> a == b
  {
    if ToJson(a) == ToJson(b) {
      FromJsonOfToJson(a);
      FromJsonOfToJson(b);
    }
  }

  /** Each code's value is its own key's name, and the three values are distinct. */
  lemma ErrorCodeValues(a: ErrorCode, b: ErrorCode)
    ensures USER_EXISTS.Value() == "USER_EXISTS"
    ensures VALIDATION_ERROR.Value() == "VALIDATION_ERROR"
    ensures UNKNOWN_ERROR.Value() == "UNKNOWN_ERROR"
    ensures a.Value() == b.Value() <==> a == b
  {
  }
}

=== FILE: signup_view.dfy ===
/**
 * The decision logic of src/views/SignUpView.tsx: the zod schema that checks
 * the sign-up form, the form's own state (defaults, the WhatsApp radio, reset)
 * and what the page shows for the outcome of signUpUser.
 *
 * The schema is read with zod 3's semantics: a failed string check (min, max,
 * email) or refinement marks the value as invalid but does not stop the other
 * checks of the same field; a missing value or a value outside the enum stops
 * that field's checks and makes the whole object invalid, and then the
 * object's own refinement is not run. In a synchronous parse, issues come
 * out in the order of the object's keys, the object refinement last.
 */
module SignUpView {
  import opened Wrappers
  import opened Errors
  import opened Actions

  // ---------------------------------------------------------------- the schema

  /** What react-hook-form holds: a field the user has not filled in is None. */
  datatype FormValues = FormValues(
    email: Option<string>,
    phone: Option<string>,
    name: Option<string>,
    dateOfBirth: Option<string>,
    isAlreadyInWhatsapp: Option<string>,
    shouldInviteToWhatsapp: bool,
    shouldReceiveUpdates: bool)

  /**
   * What the schema takes from outside: zod's email syntax check, the calendar
   * year `new Date(s).getFullYear()` gives (None for an unparseable date), and
   * the current year.
   */
  datatype Env = Env(isEmail: string -> bool, birthYear: string -> Option<int>, currentYear: int)

  /** A zod issue: the path of the field and its message. */
  datatype Violation = Violation(path: seq<string>, message: string)

  const RequiredMessage: string := "Required"
  const InvalidEmailMessage: string := "Invalid email address"
  const PhoneTooShortMessage: string := "Phone number is too short"
  const PhoneTooLongMessage: string := "Phone number is too long"
  const InvalidPhoneMessage: string := "Please enter a valid international phone number"
  const NameTooShortMessage: string := "Name must be at least 2 characters"
  const UnderageMessage: string := "You must be at least 18 years old"
  const SelectWhatsappMessage: string := "Please select if you are already in the WhatsApp group"
  const MustJoinMessage: string := "You must agree to join the WhatsApp group if you're not already a member"

  /** zod's message for a string outside `["yes", "no"]`. */
  function InvalidEnumMessage(received: string): (m: string) {
    "Invalid enum value. Expected 'yes' | 'no', received '" + received + "'"
  }

  /** `\d` without the unicode flag: an ASCII digit. */
  predicate IsDigit(c: char) {
    '0' <= c <= '9'
  }

  /** `value.replace(/\D/g, "")`: the digits of s, in order. */
  function DigitsOnly(s: string): (r: string)
    ensures |r| <= |s|
    ensures forall i :: 0 <= i < |r| ==> IsDigit(r[i])
    ensures (forall i :: 0 <= i < |s| ==> IsDigit(s[i])) ==> r == s
  {
    if s == [] then []
    else (if IsDigit(s[0]) then [s[0]] else []) + DigitsOnly(s[1..])
  }

  /** The phone refinement: between 8 and 15 digits. */
  predicate PhoneDigitsOk(s: string) {
    8 <= |DigitsOnly(s)| <= 15
  }

  /** The dateOfBirth refinement: current year minus birth year is at least 18. */
  predicate OldEnough(s: string, env: Env) {
    match env.birthYear(s)
    case None => false
    case Some(year) => env.currentYear - year >= 18
  }

  /** The email field's issues: at most one, "Required" when unset, all on path ["email"]. */
  function EmailIssues(v: Option<string>, env: Env): (r: seq<Violation>)
    ensures |r| <= 1 && forall x :: x in r ==> x.path == ["email"]
    ensures v.None? ==> r == [Violation(["email"], RequiredMessage)]
    ensures v.Some? ==> (r == [] <==> env.isEmail(v.value))
    ensures v.Some? && r != [] ==> r == [Violation(["email"], InvalidEmailMessage)]
  {
    match v
    case None => [Violation(["email"], RequiredMessage)]
    case Some(s) => if env.isEmail(s) then [] else [Violation(["email"], InvalidEmailMessage)]
  }

  /** The phone field's issues: at most two, "Required" alone when unset, all on path ["phone"]. */
  function PhoneIssues(v: Option<string>): (r: seq<Violation>)
    ensures |r| <= 2 && forall x :: x in r ==> x.path == ["phone"]
    ensures v.None? ==> r == [Violation(["phone"], RequiredMessage)]
    ensures v.Some? ==>
      r == (if |v.value| < 8 then [Violation(["phone"], PhoneTooShortMessage)] else []) +
           (if |v.value| > 15 then [Violation(["phone"], PhoneTooLongMessage)] else []) +
           (if 8 <= |DigitsOnly(v.value)| <= 15 then [] else [Violation(["phone"], InvalidPhoneMessage)])
    ensures v.Some? && 8 <= |v.value| <= 15 ==>
      (r == [] <==> 8 <= |DigitsOnly(v.value)| <= 15) &&
      (r != [] ==> r == [Violation(["phone"], InvalidPhoneMessage)])
  {
    match v
    case None => [Violation(["phone"], RequiredMessage)]
    case Some(s) =>
      (if |s| < 8 then [Violation(["phone"], PhoneTooShortMessage)] else []) +
      (if |s| > 15 then [Violation(["phone"], PhoneTooLongMessage)] else []) +
      (if PhoneDigitsOk(s) then [] else [Violation(["phone"], InvalidPhoneMessage)])
  }

  /** The name field's issues: at most one, "Required" when unset, all on path ["name"]. */
  function NameIssues(v: Option<string>): (r: seq<Violation>)
    ensures |r| <= 1 && forall x :: x in r ==> x.path == ["name"]
    ensures v.None? ==> r == [Violation(["name"], RequiredMessage)]
    ensures v.Some? ==> (r == [] <==> |v.value| >= 2)
    ensures v.Some? && r != [] ==> r == [Violation(["name"], NameTooShortMessage)]
  {
    match v
    case None => [Violation(["name"], RequiredMessage)]
    case Some(s) => if |s| < 2 then [Violation(["name"], NameTooShortMessage)] else []
  }

  /** The date field's issues: at most one, "Required" when unset, all on path ["dateOfBirth"]. */
  function DateIssues(v: Option<string>, env: Env): (r: seq<Violation>)
    ensures |r| <= 1 && forall x :: x in r ==> x.path == ["dateOfBirth"]
    ensures v.None? ==> r == [Violation(["dateOfBirth"], RequiredMessage)]
    ensures v.Some? ==> (r == [] <==> env.birthYear(v.value).Some? && env.currentYear - env.birthYear(v.value).value >= 18)
    ensures v.Some? && r != [] ==> r == [Violation(["dateOfBirth"], UnderageMessage)]
  {
    match v
    case None => [Violation(["dateOfBirth"], RequiredMessage)]
    case Some(s) => if OldEnough(s, env) then [] else [Violation(["dateOfBirth"], UnderageMessage)]
  }

  /** The radio's issues: at most one, the schema's own message when unset, all on path ["isAlreadyInWhatsapp"]. */
  function WhatsappIssues(v: Option<string>): (r: seq<Violation>)
    ensures |r| <= 1 && forall x :: x in r ==> x.path == ["isAlreadyInWhatsapp"]
    ensures v.None? ==> r == [Violation(["isAlreadyInWhatsapp"], SelectWhatsappMessage)]
    ensures v.Some? ==> (r == [] <==> v.value == "yes" || v.value == "no")
    ensures v.Some? && r != [] ==> r == [Violation(["isAlreadyInWhatsapp"], InvalidEnumMessage(v.value))]
  {
    match v
    case None => [Violation(["isAlreadyInWhatsapp"], SelectWhatsappMessage)]
    case Some(s) =>
      if s == "yes" || s == "no" then [] else [Violation(["isAlreadyInWhatsapp"], InvalidEnumMessage(s))]
  }

  /** Some field failed in a way that makes zod skip the object refinement. */
  predicate Aborted(v: FormValues) {
    v.email.None? || v.phone.None? || v.name.None? || v.dateOfBirth.None? ||
    !(v.isAlreadyInWhatsapp == Some("yes") || v.isAlreadyInWhatsapp == Some("no"))
  }

  /** The `.refine` on the object: "no" requires the invitation box to be ticked. */
  function CrossFieldIssues(v: FormValues): (r: seq<Violation>)
    ensures r != [] <==> v.isAlreadyInWhatsapp == Some("no") && !v.shouldInviteToWhatsapp
    ensures forall x :: x in r ==> x.path == ["shouldInviteToWhatsapp"]
    ensures v.isAlreadyInWhatsapp == Some("yes") ==> r == []
  {
    if v.isAlreadyInWhatsapp == Some("no") && !v.shouldInviteToWhatsapp
    then [Violation(["shouldInviteToWhatsapp"], MustJoinMessage)]
    else []
  }

  /** The keys of signUpSchema's object. */
  const SchemaKeys: set<string> := {"email", "phone", "name", "dateOfBirth", "isAlreadyInWhatsapp",
                                    "shouldInviteToWhatsapp", "shouldReceiveUpdates"}

  /**
   * Every issue signUpSchema reports for the form values. Every field is
   * checked and all of its issues are reported together; each issue names
   * one key of the schema, and the cross-field issue is absent whenever a
   * field stopped zod from reaching the object refinement.
   */
  function Issues(v: FormValues, env: Env): (r: seq<Violation>)
    ensures forall x :: x in r ==> |x.path| == 1 && x.path[0] in SchemaKeys
    ensures Aborted(v) ==> forall x :: x in r ==> x.path != ["shouldInviteToWhatsapp"]
    // every field is checked and all of its issues are reported together: no fail-fast
    ensures forall x :: x in EmailIssues(v.email, env) ==> x in r
    ensures forall x :: x in PhoneIssues(v.phone) ==> x in r
    ensures forall x :: x in NameIssues(v.name) ==> x in r
    ensures forall x :: x in DateIssues(v.dateOfBirth, env) ==> x in r
    ensures forall x :: x in WhatsappIssues(v.isAlreadyInWhatsapp) ==> x in r
    ensures !Aborted(v) ==> forall x :: x in CrossFieldIssues(v) ==> x in r
  {
    EmailIssues(v.email, env) + PhoneIssues(v.phone) + NameIssues(v.name) +
    DateIssues(v.dateOfBirth, env) + WhatsappIssues(v.isAlreadyInWhatsapp) +
    (if Aborted(v) then [] else CrossFieldIssues(v))
  }

  /** Parsing with signUpSchema, read synchronously: the data passed to signUpUser, or every issue found. */
  function Parse(v: FormValues, env: Env): (r: Result<SignUpFormData, seq<Violation>>)
    ensures r.Err? <==> Issues(v, env) != []
    ensures r.Err? ==> r.error == Issues(v, env)
    ensures r.Ok? ==>
      v.email == Some(r.value.email) && v.phone == Some(r.value.phone) &&
      v.name == Some(r.value.name) && v.dateOfBirth == Some(r.value.dateOfBirth) &&
      v.isAlreadyInWhatsapp == Some(r.value.isAlreadyInWhatsapp) &&
      r.value.shouldInviteToWhatsapp == Some(v.shouldInviteToWhatsapp) &&
      r.value.shouldReceiveUpdates == v.shouldReceiveUpdates
  {
    var issues := Issues(v, env);
    if issues != [] then Err(issues)
    else
      Ok(SignUpFormData(
        v.name.value, v.email.value, v.phone.value, v.dateOfBirth.value,
        v.isAlreadyInWhatsapp.value, Some(v.shouldInviteToWhatsapp), v.shouldReceiveUpdates))
  }

  // ------------------------------------------------------- the field rules

  /** Splitting a string splits its digits. */
  lemma {:induction false} DigitsOnlyAppend(a: string, b: string)
    ensures DigitsOnly(a + b) == DigitsOnly(a) + DigitsOnly(b)
  {
    if a == [] {
      assert a + b == b;
    } else {
      assert (a + b)[0] == a[0];
      assert (a + b)[1..] == a[1..] + b;
      DigitsOnlyAppend(a[1..], b);
    }
  }

  /** The digit count ignores a non-digit character wherever it stands. */
  lemma DigitsOnlyIgnores(a: string, c: char, b: string)
    requires !IsDigit(c)
    ensures DigitsOnly(a + [c] + b) == DigitsOnly(a + b)
  {
    DigitsOnlyAppend(a + [c], b);
    DigitsOnlyAppend(a, [c]);
    DigitsOnlyAppend(a, b);
    assert DigitsOnly([c]) == [];
  }

  /** A phone is accepted exactly when both its length and its digit count lie in [8, 15]. */
  lemma PhoneAcceptedIff(s: string)
    ensures PhoneIssues(Some(s)) == [] <==> 8 <= |s| <= 15 && 8 <= |DigitsOnly(s)| <= 15
  {
  }

  /** A value shorter than 8 is "too short", and so has too few digits as well. */
  lemma PhoneTooShort(s: string)
    requires |s| < 8
    ensures PhoneIssues(Some(s)) == [Violation(["phone"], PhoneTooShortMessage), Violation(["phone"], InvalidPhoneMessage)]
  {
  }

  /** A value longer than 15 is "too long", first among its issues, and never "too short". */
  lemma PhoneTooLong(s: string)
    requires |s| > 15
    ensures PhoneIssues(Some(s))[0] == Violation(["phone"], PhoneTooLongMessage)
    ensures Violation(["phone"], PhoneTooShortMessage) !in PhoneIssues(Some(s))
  {
  }

  /** The digits of "254712345678" are the string itself. */
  lemma PlainDigits()
    ensures DigitsOnly("254712345678") == "254712345678"
  {
    var digits := "254712345678";
    assert forall i :: 0 <= i < |digits| ==> IsDigit(digits[i]);
  }

  /** The space of "+254 712-345678" does not count. */
  lemma DropSpace()
    ensures DigitsOnly("+254 712-345678") == DigitsOnly("+254712-345678")
  {
    var a, b := "+254", "712-345678";
    assert "+254 712-345678" == a + [' '] + b;
    assert "+254712-345678" == a + b;
    DigitsOnlyIgnores(a, ' ', b);
  }

  /** The dash of "+254712-345678" does not count. */
  lemma DropDash()
    ensures DigitsOnly("+254712-345678") == DigitsOnly("+254712345678")
  {
    var a, b := "+254712", "345678";
    assert "+254712-345678" == a + ['-'] + b;
    assert "+254712345678" == a + b;
    DigitsOnlyIgnores(a, '-', b);
  }

  /** The plus of "+254712345678" does not count. */
  lemma DropPlus()
    ensures DigitsOnly("+254712345678") == DigitsOnly("254712345678")
  {
    var a: string, b := [], "254712345678";
    assert "+254712345678" == a + ['+'] + b;
    assert b == a + b;
    DigitsOnlyIgnores(a, '+', b);
  }

  /** "+254 712-345678" and "254712345678" have the same 12 digits, and both pass. */
  lemma PhoneFormatsAgree()
    ensures DigitsOnly("+254 712-345678") == DigitsOnly("254712345678") == "254712345678"
    ensures PhoneIssues(Some("+254 712-345678")) == [] && PhoneIssues(Some("254712345678")) == []
  {
    PlainDigits();
    DropSpace();
    DropDash();
    DropPlus();
    var spaced, plain := "+254 712-345678", "254712345678";
    assert |spaced| == 15 && |plain| == 12;
    PhoneAcceptedIff(spaced);
    PhoneAcceptedIff(plain);
  }

  /** The name is accepted exactly when it has at least two characters, spaces included. */
  lemma NameAcceptedIff(s: string)
    ensures NameIssues(Some(s)) == [] <==> |s| >= 2
    ensures NameIssues(Some("  ")) == []
  {
  }

  /** Only the years count: accepted exactly when current year minus birth year is at least 18. */
  lemma AgeByYears(s: string, env: Env)
    ensures env.birthYear(s).None? ==> DateIssues(Some(s), env) == [Violation(["dateOfBirth"], UnderageMessage)]
    ensures env.birthYear(s).Some? ==>
      (DateIssues(Some(s), env) == [] <==> env.currentYear - env.birthYear(s).value >= 18)
  {
  }

  /** Born 18 calendar years ago passes, whatever the month and day; 17 fails. */
  lemma AgeBoundary(s: string, env: Env)
    requires env.birthYear(s).Some?
    ensures env.birthYear(s).value == env.currentYear - 18 ==> DateIssues(Some(s), env) == []
    ensures env.birthYear(s).value == env.currentYear - 17 ==> DateIssues(Some(s), env) != []
  {
  }

  /** The WhatsApp answer is valid exactly when it is "yes" or "no". */
  lemma WhatsappAnswerIff(s: string)
    ensures WhatsappIssues(Some(s)) == [] <==> s == "yes" || s == "no"
  {
  }

  /** "no" without the box ticked fails, on the path of the box; the issue is there unless another field stopped the check. */
  lemma NoWithoutInviteFails(v: FormValues, env: Env)
    requires v.isAlreadyInWhatsapp == Some("no") && !v.shouldInviteToWhatsapp
    ensures Parse(v, env).Err?
    ensures !Aborted(v) ==> Violation(["shouldInviteToWhatsapp"], MustJoinMessage) in Issues(v, env)
  {
    if Aborted(v) {
      assert NameIssues(v.name) != [] || EmailIssues(v.email, env) != [] || PhoneIssues(v.phone) != []
          || DateIssues(v.dateOfBirth, env) != [];
    } else {
      var i := Issues(v, env);
      assert i[|i| - 1] == Violation(["shouldInviteToWhatsapp"], MustJoinMessage);
    }
  }

  /** With "yes" the cross-field rule never fires: no issue is ever on the path of the box. */
  lemma YesNeverNeedsInvite(v: FormValues, env: Env)
    requires v.isAlreadyInWhatsapp == Some("yes")
    ensures forall x :: x in Issues(v, env) ==> x.path != ["shouldInviteToWhatsapp"]
  {
  }

  /** The schema accepts exactly the values that pass every rule. */
  lemma ParseOkIff(v: FormValues, env: Env)
    ensures Parse(v, env).Ok? <==>
      v.email.Some? && env.isEmail(v.email.value) &&
      v.phone.Some? && 8 <= |v.phone.value| <= 15 && 8 <= |DigitsOnly(v.phone.value)| <= 15 &&
      v.name.Some? && |v.name.value| >= 2 &&
      v.dateOfBirth.Some? && OldEnough(v.dateOfBirth.value, env) &&
      (v.isAlreadyInWhatsapp == Some("yes") || v.isAlreadyInWhatsapp == Some("no")) &&
      (v.isAlreadyInWhatsapp == Some("no") ==> v.shouldInviteToWhatsapp)
  {
  }

  /** Data the schema lets through with "no" always carries the invitation flag set. */
  lemma AcceptedNoIsInvited(v: FormValues, env: Env)
    requires Parse(v, env).Ok? && Parse(v, env).value.isAlreadyInWhatsapp == "no"
    ensures Parse(v, env).value.shouldInviteToWhatsapp == Some(true)
  {
    ParseOkIff(v, env);
  }

  // ------------------------------------------------------- the form state

  /** `defaultValues`: both boxes unticked, every other field unset. */
  const Defaults: FormValues := FormValues(None, None, None, None, None, false, false)

  /** The text inputs of the form. */
  datatype TextField = NameField | EmailField | PhoneField | DateOfBirthField

  /** The two checkboxes of the form. */
  datatype CheckboxField = InviteBox | UpdatesBox

  /** `field.onChange` of a text input: that field holds the text, nothing else changes. */
  function WithText(v: FormValues, f: TextField, s: string): (w: FormValues)
    ensures f == NameField ==> w == v.(name := Some(s))
    ensures f == EmailField ==> w == v.(email := Some(s))
    ensures f == PhoneField ==> w == v.(phone := Some(s))
    ensures f == DateOfBirthField ==> w == v.(dateOfBirth := Some(s))
  {
    match f
    case NameField => v.(name := Some(s))
    case EmailField => v.(email := Some(s))
    case PhoneField => v.(phone := Some(s))
    case DateOfBirthField => v.(dateOfBirth := Some(s))
  }

  /** `onCheckedChange` of a checkbox. */
  function WithCheck(v: FormValues, f: CheckboxField, b: bool): (w: FormValues)
    ensures f == InviteBox ==> w == v.(shouldInviteToWhatsapp := b)
    ensures f == UpdatesBox ==> w == v.(shouldReceiveUpdates := b)
  {
    match f
    case InviteBox => v.(shouldInviteToWhatsapp := b)
    case UpdatesBox => v.(shouldReceiveUpdates := b)
  }

  /**
   * The radio group's `onValueChange`: the answer is stored, "yes" unticks the
   * invitation box and "no" ticks it; every other field keeps its value.
   */
  function WithAnswer(v: FormValues, answer: string): (w: FormValues)
    ensures w.isAlreadyInWhatsapp == Some(answer)
    ensures answer == "yes" ==> !w.shouldInviteToWhatsapp
    ensures answer == "no" ==> w.shouldInviteToWhatsapp
    ensures answer != "yes" && answer != "no" ==> w.shouldInviteToWhatsapp == v.shouldInviteToWhatsapp
    ensures w.email == v.email && w.phone == v.phone && w.name == v.name
    ensures w.dateOfBirth == v.dateOfBirth && w.shouldReceiveUpdates == v.shouldReceiveUpdates
  {
    var changed := v.(isAlreadyInWhatsapp := Some(answer));
    var afterYes := if answer == "yes" then changed.(shouldInviteToWhatsapp := false) else changed;
    if answer == "no" then afterYes.(shouldInviteToWhatsapp := true) else afterYes
  }

  /** A radio choice never leaves the cross-field rule broken. */
  lemma AnswerSatisfiesCrossField(v: FormValues, answer: string)
    ensures CrossFieldIssues(WithAnswer(v, answer)) == []
  {
  }

  /**
   * The states the page can reach: the invitation box is ticked only while
   * the answer is "no" (it starts unticked, "yes" unticks it, and it is only
   * shown once "no" is chosen).
   */
  predicate Coherent(v: FormValues) {
    v.isAlreadyInWhatsapp != Some("no") ==> !v.shouldInviteToWhatsapp
  }

  /** The defaults are coherent, and every edit the page allows keeps the form coherent. */
  lemma EditsKeepCoherent(v: FormValues, f: TextField, s: string, box: CheckboxField, b: bool, answer: string)
    requires Coherent(v)
    ensures Coherent(Defaults)
    ensures Coherent(WithText(v, f, s))
    ensures box == InviteBox ==> v.isAlreadyInWhatsapp == Some("no") ==> Coherent(WithCheck(v, box, b))
    ensures box == UpdatesBox ==> Coherent(WithCheck(v, box, b))
    ensures answer == "yes" || answer == "no" ==> Coherent(WithAnswer(v, answer))
  {
  }

  /**
   * From a coherent form the schema lets through, the stored record has
   * exactly one of invitedToWhatsapp ("yes") and shouldInviteToWhatsapp ("no").
   */
  lemma CoherentRecordFlags(v: FormValues, env: Env)
    requires Coherent(v) && Parse(v, env).Ok?
    ensures var rec := ToRecord(Parse(v, env).value);
      (rec.invitedToWhatsapp <==> rec.shouldInviteToWhatsapp == Some(false)) &&
      (rec.shouldInviteToWhatsapp == Some(true) <==> v.isAlreadyInWhatsapp == Some("no"))
  {
    ParseOkIff(v, env);
  }

  /** The defaults fail the schema: the text fields and the radio are required. */
  lemma DefaultsRejected(env: Env)
    ensures !Defaults.shouldInviteToWhatsapp && !Defaults.shouldReceiveUpdates
    ensures Parse(Defaults, env) == Err([
      Violation(["email"], RequiredMessage), Violation(["phone"], RequiredMessage),
      Violation(["name"], RequiredMessage), Violation(["dateOfBirth"], RequiredMessage),
      Violation(["isAlreadyInWhatsapp"], SelectWhatsappMessage)])
  {
    var a, b, c := Violation(["email"], RequiredMessage), Violation(["phone"], RequiredMessage), Violation(["name"], RequiredMessage);
    var d, e := Violation(["dateOfBirth"], RequiredMessage), Violation(["isAlreadyInWhatsapp"], SelectWhatsappMessage);
    assert Aborted(Defaults);
    assert Issues(Defaults, env) == [a] + [b] + [c] + [d] + [e] + [];
    assert [a] + [b] + [c] + [d] + [e] + [] == [a, b, c, d, e];
  }

  // ------------------------------------------------- showing the outcome

  /** The error part of SignUpResponse. */
  datatype ErrorBody = ErrorBody(message: string, code: string)

  /** The SignUpResponse type the view declares for what signUpUser gives back. */
  datatype SignUpResponse = SignUpResponse(success: bool, message: Option<string>, error: Option<ErrorBody>)

  /** A toast: success with the response's message (possibly undefined), or an error message. */
  datatype Toast = SuccessToast(shown: Option<string>) | ErrorToast(text: string)

  const GenericSignUpMessage: string := "An unexpected error occurred during sign up"

  /** The toast onSuccess shows for a response; an empty error message counts as missing. */
  function ResponseToast(r: SignUpResponse): (t: Toast)
    ensures r.success ==> t == SuccessToast(r.message)
    ensures !r.success && r.error.Some? && r.error.value.message != "" ==> t == ErrorToast(r.error.value.message)
    ensures !r.success && (r.error.None? || r.error.value.message == "") ==> t == ErrorToast(GenericSignUpMessage)
  {
    if r.success then SuccessToast(r.message)
    else if r.error.Some? && r.error.value.message != "" then ErrorToast(r.error.value.message)
    else ErrorToast(GenericSignUpMessage)
  }

  /**
   * The toast as the code is written: a reply signUpUser returns goes to
   * onSuccess; an error it throws goes to onError, which ignores it.
   */
  function ToastAsWritten(r: Result<SignUpReply, AppError>): (t: Toast)
    ensures r.Ok? ==> t == ResponseToast(SignUpResponse(r.value.success, Some(r.value.message), None))
    ensures r.Err? ==> t == ErrorToast(GenericSignUpMessage)
  {
    match r
    case Ok(reply) => ResponseToast(SignUpResponse(reply.success, Some(reply.message), None))
    case Err(_) => ErrorToast(GenericSignUpMessage)
  }

  /** As written, a duplicate sign-up shows the generic text, never the duplicate message. */
  lemma DuplicateMessageHiddenAsWritten(users: seq<UserRecord>, data: SignUpFormData)
    requires Conflicts(users, data.email, data.phone)
    ensures ToastAsWritten(SignUp(users, data, None, None).0) == ErrorToast(GenericSignUpMessage)
    ensures ToastAsWritten(SignUp(users, data, None, None).0) != ErrorToast(UserExistsMessage)
  {
  }

  /** The corrected conversion: once errors come back as responses, an error becomes `{success: false, error}` in the shape SignUpResponse declares. */
  function ToResponse(r: Result<SignUpReply, AppError>): (resp: SignUpResponse)
    ensures r.Ok? ==> resp == SignUpResponse(r.value.success, Some(r.value.message), None)
    ensures r.Err? ==> !resp.success && resp.error == Some(ErrorBody(r.error.message, r.error.code))
  {
    match r
    case Ok(reply) => SignUpResponse(reply.success, Some(reply.message), None)
    case Err(e) => SignUpResponse(false, None, Some(ErrorBody(e.message, e.code)))
  }

  /** The toast for signUpUser's outcome once errors come back as responses. */
  function OutcomeToast(r: Result<SignUpReply, AppError>): (t: Toast) {
    ResponseToast(ToResponse(r))
  }

  /** Every error with a message shows that message; success shows the success message. */
  lemma OutcomeToastShows(r: Result<SignUpReply, AppError>)
    ensures r.Ok? && r.value.success ==> OutcomeToast(r) == SuccessToast(Some(r.value.message))
    ensures r.Err? && r.error.message != "" ==> OutcomeToast(r) == ErrorToast(r.error.message)
    ensures r.Err? && r.error.message == "" ==> OutcomeToast(r) == ErrorToast(GenericSignUpMessage)
  {
  }

  /** With errors returned as responses, a duplicate sign-up shows the duplicate message. */
  lemma DuplicateMessageShown(users: seq<UserRecord>, data: SignUpFormData)
    requires Conflicts(users, data.email, data.phone)
    ensures OutcomeToast(SignUp(users, data, None, None).0) == ErrorToast(UserExistsMessage)
  {
  }

  /** What a submission shows: the schema's issues, field by field, or a toast. */
  datatype SubmitOutcome = ShowIssues(issues: seq<Violation>) | ShowToast(toast: Toast)

  /** The form of the page: the values react-hook-form keeps. */
  class SignUpForm {
    var values: FormValues

    /** `useForm` with the default values. */
    constructor ()
      ensures values == Defaults
    {
      values := Defaults;
    }

    /** Typing into a text input. */
    method EnterText(f: TextField, s: string)
      modifies this
      ensures values == WithText(old(values), f, s)
    {
      values := WithText(values, f, s);
    }

    /** Ticking or unticking a checkbox; the invitation box is only on the page once "no" is chosen. */
    method Check(f: CheckboxField, b: bool)
      requires f == InviteBox ==> values.isAlreadyInWhatsapp == Some("no")
      modifies this
      ensures values == WithCheck(old(values), f, b)
    {
      values := WithCheck(values, f, b);
    }

    /** The radio group's `onValueChange`: `field.onChange`, then `setValue` on the invitation box. */
    method SelectAnswer(answer: string)
      modifies this
      ensures values == WithAnswer(old(values), answer)
    {
      values := values.(isAlreadyInWhatsapp := Some(answer));
      if answer == "yes" {
        values := values.(shouldInviteToWhatsapp := false);
      }
      if answer == "no" {
        values := values.(shouldInviteToWhatsapp := true);
      }
    }

    /** `form.reset()`: back to the default values. */
    method Reset()
      modifies this
      ensures values == Defaults
    {
      values := Defaults;
    }

    /** onSuccess: show the toast; a successful response also resets the form. */
    method OnSuccess(r: SignUpResponse) returns (t: Toast)
      modifies this
      ensures t == ResponseToast(r)
      ensures values == if r.success then Defaults else old(values)
    {
      if r.success {
        t := SuccessToast(r.message);
        Reset();
      } else if r.error.Some? && r.error.value.message != "" {
        t := ErrorToast(r.error.value.message);
      } else {
        t := ErrorToast(GenericSignUpMessage);
      }
    }

    /**
     * `form.handleSubmit(onSubmit)` as written: the schema's issues stop the
     * submission; otherwise `mutateAsync(data)` calls signUpUser. A reply goes
     * to onSuccess; a thrown error rejects the mutation, and onError shows the
     * generic text and leaves the form as it is.
     */
    method Submit(store: UserStore, env: Env, lookupFault: Option<Thrown>, createFault: Option<Thrown>)
      returns (outcome: SubmitOutcome)
      modifies this, store
      ensures Parse(old(values), env).Err? ==>
        outcome == ShowIssues(Parse(old(values), env).error) &&
        values == old(values) && store.users == old(store.users)
      ensures Parse(old(values), env).Ok? ==>
        var (r, after) := SignUp(old(store.users), Parse(old(values), env).value, lookupFault, createFault);
        store.users == after && outcome == ShowToast(ToastAsWritten(r)) &&
        values == if r.Ok? then Defaults else old(values)
      ensures UniqueKeys(old(store.users)) ==> UniqueKeys(store.users)
    {
      var parsed := Parse(values, env);
      if parsed.Err? {
        return ShowIssues(parsed.error);
      }
      var r := store.SignUpUser(parsed.value, lookupFault, createFault);
      match r
      case Ok(reply) =>
        var t := OnSuccess(SignUpResponse(reply.success, Some(reply.message), None));
        outcome := ShowToast(t);
      case Err(_) =>
        outcome := ShowToast(ErrorToast(GenericSignUpMessage));
    }

    /**
     * Submitting once signUpUser's errors come back as responses: every
     * outcome, reply or error, goes to onSuccess through ToResponse.
     */
    method SubmitCorrected(store: UserStore, env: Env, lookupFault: Option<Thrown>, createFault: Option<Thrown>)
      returns (outcome: SubmitOutcome)
      modifies this, store
      ensures Parse(old(values), env).Err? ==>
        outcome == ShowIssues(Parse(old(values), env).error) &&
        values == old(values) && store.users == old(store.users)
      ensures Parse(old(values), env).Ok? ==>
        var (r, after) := SignUp(old(store.users), Parse(old(values), env).value, lookupFault, createFault);
        store.users == after && outcome == ShowToast(OutcomeToast(r)) &&
        values == if r.Ok? then Defaults else old(values)
      ensures UniqueKeys(old(store.users)) ==> UniqueKeys(store.users)
    {
      var parsed := Parse(values, env);
      if parsed.Err? {
        return ShowIssues(parsed.error);
      }
      var r := store.SignUpUser(parsed.value, lookupFault, createFault);
      var t := OnSuccess(ToResponse(r));
      outcome := ShowToast(t);
    }
  }

  // ----------------------------------------------------------- a scenario

  /** The form Jane Doe fills in. */
  const Jane: FormValues := FormValues(
    Some("jane@example.com"), Some("+254712345678"), Some("Jane Doe"), Some("2000-01-01"),
    Some("no"), true, true)

  /**
   * Jane's form passes the schema; against an empty table it adds one record
   * with invitedToWhatsapp false (she answered "no"), and a second submission
   * of the same data fails with USER_EXISTS and leaves that one record.
   */
  lemma JaneSignsUpOnce(env: Env)
    requires env.isEmail("jane@example.com")
    requires env.birthYear("2000-01-01") == Some(2000) && env.currentYear >= 2018
    ensures Parse(Jane, env).Ok?
    ensures var data := Parse(Jane, env).value;
            var (r1, s1) := SignUp([], data, None, None);
            var (r2, s2) := SignUp(s1, data, None, None);
            r1.Ok? && |s1| == 1 && !s1[0].invitedToWhatsapp && s1[0].shouldInviteToWhatsapp == Some(true) &&
            r2 == Err(UserExistsError) && s2 == s1
  {
    DropPlus();
    PlainDigits();
    var phone := "+254712345678";
    assert |phone| == 13;
    PhoneAcceptedIff(phone);
    ParseOkIff(Jane, env);
    var data := Parse(Jane, env).value;
    SignUpTwice([], data);
  }
}

=== FILE: wrappers.dfy ===
/** Option and Result, the failure-carrying datatypes the other modules share. */
module Wrappers {

  /** A value that may be absent (`undefined` in the source). */
  datatype Option<+T> = None | Some(value: T)

  /** A returned value or, in its place, the error the source throws. */
  datatype Result<+T, +E> = Ok(value: T) | Err(error: E)
}
